=== FILE: README.md ===
# Rice-leaf disease detection app: a Dafny model of its decision logic

The application is a small Flask site. Users upload a photo of a rice leaf,
a pre-trained image classifier scores it against six labels, the result is
stored in a detection log, and the page shows the matching disease entry and
the caller's recent detections. Administrators manage the user table.

This project models the pure decision logic inside the request handlers.
The web framework, the ORM, the classifier and the password hasher are
replaced by plain values and parameters:

- `common.dfy` (`Common`): `Option`, `Result`, the HTTP method, and the
  caller identity Flask-Login supplies (anonymous, or an id and a role),
  and the one login refusal both login-protected blueprints give.
- `app_init.dfy` (`AppInit`): the upload-extension check `allowed_file`
  and the language fallback of `inject_translations`.
- `history.dfy` (`History`): the detection-log table and its two history
  queries. One query returns a caller's own records, newest first, five per
  page. The other returns the five newest records of anyone.
- `detect.dfy` (`Detect`): the `/detect` request as a pure transition
  `(log table, request) -> (log table, response)`, and the `/detect/logs`
  page. The classifier is represented by its score vector over `real`s, or
  by its absence when saving, loading or scoring the upload raises. The
  database clock is a `now` parameter.
- `admin.dfy` (`Admin`): the admin user store as a map from id to
  `User(username, role, passwordHash)` plus a counter that new keys are
  drawn from. It
  models the admin gate and the create, edit and delete handlers. The
  password hasher is a function parameter.

Each handler returns the new state together with its response. Every
contract covers all branches, including the ones where nothing changes:
a non-admin caller, an unknown id (404), a missing form field (400), a GET
with no upload, a history page the pagination refuses, an upload that
cannot be saved, loaded or scored, and a step from scores to label that
raises.

Behaviour of the code worth knowing:

- The upload route neither calls `allowed_file` nor sanitises the
  filename. The stored `imagePath` is `"uploads/" + filename` verbatim.
- No result is stashed in the session and no redirect follows a POST: the
  result is rendered inline.
- Editing a user never checks other usernames. `Admin.EditUserCanDuplicateUsername`
  exhibits a store with unique usernames that an edit turns into one with a
  duplicate. Only create and delete preserve uniqueness, assuming the table
  itself has no unique constraint on usernames (see below).
- A page past the last one is not an empty page. It goes to
  Flask-SQLAlchemy's `paginate`, which is not part of this model (see
  below). On `/detect` that query runs before the upload is looked at, so a
  refused page means nothing is written.
- `/detect/logs` and the admin pages answer an anonymous caller with the
  same login refusal (`Common.LoginRequired`).

## Model

| member | source | states |
|---|---|---|
| AppInit.RSplitOnce | app/__init__.py:17 | `rsplit('.', 1)` yields one piece exactly when there is no dot; otherwise the two pieces joined by the dot give back the name, and the second piece holds no dot |
| AppInit.RSplitOnceOfJoin | app/__init__.py:17 | splitting `prefix + "." + ext`, with no dot in `ext`, gives back exactly `prefix` and `ext`: the split is at the last dot |
| AppInit.Lower | app/__init__.py:17 | `str.lower` keeps the length, turns every upper-case ASCII letter into its lower-case letter, leaves no upper-case ASCII letter behind, and keeps every dot where it was and adds none |
| AppInit.AllowedFile | app/__init__.py:14-18 | an accepted name contains a dot and is at least four characters long (the shortest is `.png`); AllowedFileNeedsDot and AllowedFileByExtension give the full account |
| AppInit.AllowedFileNeedsDot | app/__init__.py:16 | a filename without a dot is always refused |
| AppInit.AllowedFileByExtension | app/__init__.py:13-18 | a name with a dot is accepted iff the text after its last dot, lower-cased, is one of png, jpg, jpeg and gif; the part before the dot does not matter and may be empty |
| AppInit.AllowedFileIgnoresCase | app/__init__.py:17 | two names that are equal once lower-cased are accepted or refused together |
| AppInit.AllowedFileExamples | app/__init__.py:17 | only the last extension counts: `a.tar.gif` is accepted and `x.png.exe` refused |
| AppInit.AllowedFileEdgeExamples | app/__init__.py:16-17 | `.png` (empty part before the dot) is accepted; `file.` (empty extension) and `png` (no dot) are refused |
| AppInit.AllowedFileUpperCaseExample | app/__init__.py:17 | `IMG.JPG` is accepted, as `img.jpg` is |
| AppInit.InjectTranslations | app/__init__.py:49-52 | the result is always one of the catalogue's tables: the session language's table when that language is known, the `en` table when no language is set or the code is unknown; a catalogue without `en` raises whatever the session holds |
| History.InsertNewestFirst | app/routes/detect.py:53 | inserting into a newest-first list keeps it newest first and adds exactly the new record |
| History.SortNewestFirst | app/routes/detect.py:53 | `order_by(timestamp.desc())` yields a newest-first permutation of its input |
| History.OwnedBy | app/routes/detect.py:52 | `filter_by(user_id=uid)` keeps exactly the records owned by `uid`, each as many times as it occurs in the table |
| History.Window | app/routes/detect.py:54 | page `p` holds at most five items, namely items `5(p-1)`, `5(p-1)+1`, … of the input, and is non-empty when the input reaches that far |
| History.PageExists | app/routes/detect.py:54 | page 1 always exists; otherwise a page exists iff it lies between 1 and the page count `ceil(total/5)` |
| History.Paginate | app/routes/detect.py:54 | a page exists iff it is page 1 or starts inside the list; an existing page reports the requested number and the total count |
| History.UserHistory | app/routes/detect.py:51-55 | the page is served iff it exists for the number of records the caller owns; an authenticated caller's history page holds at most five records, all of them the caller's own and all from the table, newest first; the total is the number of records the caller owns |
| History.RecentHistory | app/routes/detect.py:56-59 | the anonymous history holds `min(5, n)` records from the table, of any owner, newest first, and no record left out is newer than any record shown |
| History.PagesUpToIsPrefix | app/routes/detect.py:54 | reading pages 1 to n in turn yields the first `5n` items in order |
| History.PagesCoverAll | app/routes/detect.py:54 | pages 1 to `ceil(n/5)` all exist and together list every item exactly once, in order; the page after the last one does not exist (unless it is page 1) |
| History.UserHistoryPagesCoverCallerRecords | app/routes/detect.py:51-55 | paging through a caller's history from the first page to the last shows each of their records exactly once, newest first |
| Detect.ArgMax | app/routes/detect.py:80 | `np.argmax` picks an index whose score is at least every other score, and the first such index |
| Detect.Classify | app/routes/detect.py:80-82 | an empty score vector raises; a vector of at most six scores always yields a label; the label is `LABELS[i]` for the first index `i` holding the maximal score, confidence is that score times 100 and lies in [0, 100] when all scores lie in [0, 1]; the step raises on a non-empty vector only when a score past `LABELS` beats every score within it |
| Detect.FindDisease | app/routes/detect.py:100 | the disease shown is the first catalogue entry whose name equals the label exactly, and nothing iff no entry matches |
| Detect.HasImage | app/routes/detect.py:61-63 | an upload is handled exactly when the request is a POST whose `image` field has a non-empty filename; a GET never handles one |
| Detect.NewLog | app/routes/detect.py:85-94 | the new record carries the label, confidence and time, the path `uploads/` followed by the client's filename unchanged, and the caller's id exactly when the caller is logged in; it keeps ids sequential |
| Detect.FirstPageNeverRefused | app/routes/detect.py:52-55 | page 1 of the history, the default, is never refused, so a caller with no records yet still gets their upload recorded |
| Detect.HistoryFor | app/routes/detect.py:51-59 | an anonymous caller sees the five newest records of anyone; an authenticated caller sees the requested page of their own records, newest first |
| Detect.Detect | app/routes/detect.py:45-111 | a history page the pagination refuses stops the request and writes nothing; otherwise a GET, or a POST without a named file, writes nothing and renders no result; an upload that cannot be saved, loaded or scored writes nothing; a step from scores to label that raises writes nothing; otherwise exactly one record is appended, holding the label, the confidence, `"uploads/" + filename`, the caller's id or none, and the time; the view shows that label, confidence and disease, and the history as it was before the append |
| Detect.DetectAppendsAtMostOne | app/routes/detect.py:85-97 | the log table is append-only: existing records are untouched, at most one is added, and ids stay sequential |
| Detect.DetectWithFullScoreVector | app/routes/detect.py:31-38 | a POST whose `image` field has a non-empty filename and scores without raising, with a six-score vector, always yields one of the six `LABELS` entries, and the appended record carries it, unless the history page was refused first |
| Detect.Logs | app/routes/detect.py:117-126 | an anonymous caller gets the login refusal; an authenticated one sees the same page of their own records that `/detect` shows them |
| Common.RequireLogin | app/routes/detect.py:118 | `login_required` lets a caller through iff they are logged in |
| Admin.UsernameTaken | app/routes/admin.py:35 | a username is taken iff it is among the usernames of the stored users |
| Admin.Gate | app/routes/admin.py:9-17 | only an authenticated caller whose role is `Admin` passes; an anonymous caller gets the login refusal; anyone else with a role is redirected with "Admin access only." |
| Admin.CreateUser | app/routes/admin.py:26-49 | non-admins, a GET, a missing field and a taken username change nothing; otherwise exactly one user is added under a key drawn from the counter, with the given username and role and `hash(password)` as the password field |
| Admin.EditUser | app/routes/admin.py:51-62 | non-admins, an unknown id (404), a GET and a missing field change nothing; otherwise only that user's username and role change, the password hash and all other users stay as they were |
| Admin.DeleteUser | app/routes/admin.py:64-75 | non-admins, an unknown id (404) and the caller's own id change nothing; otherwise exactly that user is removed and all others stay as they were |
| Admin.CreateUserPreservesInvariants | app/routes/admin.py:35-45 | create keeps keys below the counter and usernames unique, and either changes nothing or adds exactly one user under a fresh key |
| Admin.EditDeleteKeepValid | app/routes/admin.py:55-73 | edit and delete keep every key below the key counter |
| Admin.DeleteUserPreservesUniqueness | app/routes/admin.py:68-73 | delete never introduces a duplicate username and removes at most one user |
| Admin.EditUserCanDuplicateUsername | app/routes/admin.py:55-59 | an edit can turn a store with unique usernames into one with two users of the same name |

## Left out

- Model download and loading (app/__init__.py:32-46 and app/routes/detect.py:17-28): network, filesystem and TensorFlow. `load_model` is also never imported in `app/__init__.py`.
- Image preprocessing and `MODEL.predict` (app/routes/detect.py:73-79): the model takes the score vector as an input.
- Saving the upload to disk (app/routes/detect.py:66-70): filesystem I/O. The model makes no claim that the file stays inside the upload directory.
- Detect.Classify: scores are exact reals, not 32-bit floats, so the rounding of `float(...) * 100` and NaN scores are not modelled.
- History.Paginate: what Flask-SQLAlchemy does with a page below 1 or past the last one is not modelled (`OutOfRange`), because that behaviour lives in the library, which is not part of this model.
- Detect.Detect: for a refused page the response is only `PageRejected`; the model promises that nothing is written, not which answer (a 404 with the library's default) the caller gets.
- History.SortNewestFirst: the database leaves the order of equal timestamps open; the model lists the later-inserted record first.
- Detect.Detect: a new record's id is its position in the table, which is append-only in this model; the database's key assignment is not modelled.
- The `page` query argument arrives already parsed; `type=int` falling back to 1 for a missing or malformed value is framework behaviour.
- AppInit.Lower: `str.lower` is modelled on ASCII letters only. The verdict of `allowed_file` is unaffected. Apart from A–Z, the only characters whose Unicode lower case contains an ASCII letter are U+212A (to `k`) and U+0130 (to `i` followed by U+0307). Neither can produce png, jpg, jpeg or gif.
- Translation tables are kept abstract (a type parameter). `app/translations.py` is not part of this model.
- The `Disease` and `User` rows carry only the fields the handlers use. `app/models.py` is not part of this model. The model assumes the `User` table has no unique constraint on `username`; with one, the commit of a duplicating edit would raise instead, and Admin.EditUserCanDuplicateUsername would not apply.
- Admin.CreateUser: the new key is drawn from a counter that never reuses a key. The database's real key assignment is not shown; SQLite without AUTOINCREMENT, for one, can hand out a deleted top key again.
- Admin.CreateUser: the username lookup is exact string equality; a database collation that compares names case-insensitively is not modelled.
- Detect.FindDisease: the disease lookup by name is exact string equality too; a case-insensitive collation is not modelled.
- `manage_users` (app/routes/admin.py:19-24) only lists all users; it has no logic beyond the gate.
- Whether the login refusal is a redirect or a 401 is not modelled: the application configures no login view.
- Flash messages, templates and redirects are kept as response values. Sessions, the ORM session and transactions are not modelled. A handler that raises changes nothing because the request's transaction is never committed.
- app/routes/dashboard.py (database counts behind a login check), app/lang.py (a single session assignment; `_name_` is undefined there), app/static/service-worker.js (browser caching) and run.py (startup) hold no logic of the modelled kind.

=== FILE: admin.dfy ===
/** The `/admin` blueprint: user management over the user table, open to
    logged-in callers whose role is `Admin`. */
module Admin {
  import opened Common

  /** A row of the `User` table; `passwordHash` holds the output of the
      password hasher, never the password itself. */
  datatype User = User(username: string, role: string, passwordHash: string)

  /** The user table: rows by primary key, and a counter from which new keys
      are drawn. The database's own key assignment is not part of this model;
      the counter stands for one that never reuses a key. */
  datatype UserStore = UserStore(users: map<nat, User>, nextId: nat)

  /** Every existing key was handed out earlier. */
  ghost predicate Valid(s: UserStore) {
    forall id :: id in s.users ==> id < s.nextId
  }

  ghost predicate UniqueUsernames(s: UserStore) {
    forall a, b :: a in s.users && b in s.users && s.users[a].username == s.users[b].username ==> a == b
  }

  /** Pages a response can redirect to. */
  datatype Target = DetectPage | CreateUserPage | ManageUsersPage

  datatype Response =
    | NotLoggedIn(refusal: LoginRefusal)          // `login_required` turns an anonymous caller away
    | Redirect(to: Target, flash: Option<string>)
    | UserForm(user: Option<User>)                // the create/edit form
    | NotFound                                    // `get_or_404`
    | BadRequest                                  // a form field is missing

  predicate IsAdmin(caller: Caller) {
    caller.Authenticated? && caller.role == "Admin"
  }

  /** `login_required` followed by `admin_required`: the response that stops
      the request, or nothing when the caller may proceed. */
  function Gate(caller: Caller): (r: Option<Response>)
    ensures r.None? <==> IsAdmin(caller)
    ensures caller.Anonymous? ==> r == Some(NotLoggedIn(LoginRequired))
    ensures caller.Authenticated? && !IsAdmin(caller) ==>
              r == Some(Redirect(DetectPage, Some("Admin access only.")))
  {
    if RequireLogin(caller).Some? then Some(NotLoggedIn(RequireLogin(caller).value))
    else if caller.role != "Admin" then Some(Redirect(DetectPage, Some("Admin access only.")))
    else None
  }

  /** `User.query.filter_by(username=name).first()` finds a row. */
  predicate UsernameTaken(s: UserStore, name: string): (taken: bool)
    ensures taken <==> name in (set id | id in s.users :: s.users[id].username)
  {
    exists id :: id in s.users && s.users[id].username == name
  }

  /** `create_user`. A GET shows the empty form. A POST reads `username`,
      `role` and `password` from the form, refuses a username that is already
      taken, and otherwise adds one user, under a key drawn from the counter,
      whose password field is `hash(password)`. */
  function CreateUser(s: UserStore, caller: Caller, verb: HttpMethod, form: map<string, string>, hash: string -> string)
    : (out: (UserStore, Response))
    ensures !IsAdmin(caller) ==> out == (s, Gate(caller).value)
    ensures IsAdmin(caller) && verb == Get ==> out == (s, UserForm(None))
    ensures IsAdmin(caller) && verb == Post && !("username" in form && "role" in form && "password" in form) ==>
              out == (s, BadRequest)
    ensures IsAdmin(caller) && verb == Post && "username" in form && "role" in form && "password" in form ==>
              if UsernameTaken(s, form["username"]) then
                out == (s, Redirect(CreateUserPage, Some("Username already exists.")))
              else
                && out.1 == Redirect(ManageUsersPage, Some("User created."))
                && out.0.nextId == s.nextId + 1
                && out.0.users == s.users[s.nextId := User(form["username"], form["role"], hash(form["password"]))]
  {
    if Gate(caller).Some? then (s, Gate(caller).value)
    else if verb == Get then (s, UserForm(None))
    else if !("username" in form && "role" in form && "password" in form) then (s, BadRequest)
    else
      var username, role, password := form["username"], form["role"], form["password"];
      if UsernameTaken(s, username) then (s, Redirect(CreateUserPage, Some("Username already exists.")))
      else
        var user := User(username, role, hash(password));
        (UserStore(s.users[s.nextId := user], s.nextId + 1), Redirect(ManageUsersPage, Some("User created.")))
  }

  /** `edit_user`. An unknown id is a 404. A GET shows the form for the user.
      A POST overwrites that user's username and role and nothing else. */
  function EditUser(s: UserStore, caller: Caller, id: nat, verb: HttpMethod, form: map<string, string>)
    : (out: (UserStore, Response))
    ensures !IsAdmin(caller) ==> out == (s, Gate(caller).value)
    ensures IsAdmin(caller) && id !in s.users ==> out == (s, NotFound)
    ensures IsAdmin(caller) && id in s.users && verb == Get ==> out == (s, UserForm(Some(s.users[id])))
    ensures IsAdmin(caller) && id in s.users && verb == Post && !("username" in form && "role" in form) ==>
              out == (s, BadRequest)
    ensures IsAdmin(caller) && id in s.users && verb == Post && "username" in form && "role" in form ==>
              && out.1 == Redirect(ManageUsersPage, Some("User updated."))
              && out.0.nextId == s.nextId
              && out.0.users.Keys == s.users.Keys
              && out.0.users[id].username == form["username"]
              && out.0.users[id].role == form["role"]
              && out.0.users[id].passwordHash == s.users[id].passwordHash
              && (forall k :: k in s.users && k != id ==> out.0.users[k] == s.users[k])
  {
    if Gate(caller).Some? then (s, Gate(caller).value)
    else if id !in s.users then (s, NotFound)
    else if verb == Get then (s, UserForm(Some(s.users[id])))
    else if !("username" in form && "role" in form) then (s, BadRequest)
    else
      var user := s.users[id].(username := form["username"], role := form["role"]);
      (s.(users := s.users[id := user]), Redirect(ManageUsersPage, Some("User updated.")))
  }

  /** `delete_user`. An unknown id is a 404; the caller's own id is refused;
      any other id is removed, and only that one. */
  function DeleteUser(s: UserStore, caller: Caller, id: nat): (out: (UserStore, Response))
    ensures !IsAdmin(caller) ==> out == (s, Gate(caller).value)
    ensures IsAdmin(caller) && id !in s.users ==> out == (s, NotFound)
    ensures IsAdmin(caller) && id in s.users && id == caller.id ==>
              out == (s, Redirect(ManageUsersPage, Some("You cannot delete yourself.")))
    ensures IsAdmin(caller) && id in s.users && id != caller.id ==>
              && out.1 == Redirect(ManageUsersPage, Some("User deleted."))
              && out.0.nextId == s.nextId
              && out.0.users.Keys == s.users.Keys - {id}
              && (forall k :: k in out.0.users ==> out.0.users[k] == s.users[k])
  {
    if Gate(caller).Some? then (s, Gate(caller).value)
    else if id !in s.users then (s, NotFound)
    else if id == caller.id then (s, Redirect(ManageUsersPage, Some("You cannot delete yourself.")))
    else (s.(users := s.users - {id}), Redirect(ManageUsersPage, Some("User deleted.")))
  }

  /** A successful create adds exactly one user, under a key no existing user
      holds, and the store stays valid and free of duplicate usernames. */
  lemma CreateUserPreservesInvariants(s: UserStore, caller: Caller, verb: HttpMethod, form: map<string, string>, hash: string -> string)
    requires Valid(s) && UniqueUsernames(s)
    ensures var after := CreateUser(s, caller, verb, form, hash).0;
      && Valid(after)
      && UniqueUsernames(after)
      && (after == s || (|after.users| == |s.users| + 1 && s.nextId !in s.users && s.users.Keys < after.users.Keys))
  {
  }

  /** Editing and deleting keep the key counter ahead of every key. */
  lemma EditDeleteKeepValid(s: UserStore, caller: Caller, id: nat, verb: HttpMethod, form: map<string, string>)
    requires Valid(s)
    ensures Valid(EditUser(s, caller, id, verb, form).0)
    ensures Valid(DeleteUser(s, caller, id).0)
  {
  }

  /** Deleting never introduces a duplicate username and shrinks the table by
      at most one. */
  lemma DeleteUserPreservesUniqueness(s: UserStore, caller: Caller, id: nat)
    requires UniqueUsernames(s)
    ensures UniqueUsernames(DeleteUser(s, caller, id).0)
    ensures |DeleteUser(s, caller, id).0.users| >= |s.users| - 1
  {
  }

  /** Unlike create, edit does not look at other users' names: renaming a
      user to a name another user holds succeeds and leaves two users with
      the same username. */
  lemma EditUserCanDuplicateUsername()
    ensures var s := UserStore(map[1 := User("alice", "Admin", "h1"), 2 := User("bob", "User", "h2")], 3);
      && UniqueUsernames(s)
      && !UniqueUsernames(EditUser(s, Authenticated(1, "Admin"), 2, Post, map["username" := "alice", "role" := "User"]).0)
  {
    var s := UserStore(map[1 := User("alice", "Admin", "h1"), 2 := User("bob", "User", "h2")], 3);
    var after := EditUser(s, Authenticated(1, "Admin"), 2, Post, map["username" := "alice", "role" := "User"]).0;
    assert after.users[1].username == after.users[2].username;
  }
}

=== FILE: app_init.dfy ===
/** The two pieces of pure logic in the application package initialiser:
    the upload-extension check `allowed_file` and the language fallback of the
    `inject_translations` context processor. */
module AppInit {
  import opened Common

  /** The extensions an uploaded image may carry (`ALLOWED_EXTENSIONS`). */
  const AllowedExtensions: set<string> := {"png", "jpg", "jpeg", "gif"}

  /** `str.lower` on one character. Only ASCII letters are folded; see the
      README for why this gives the same verdicts as full Unicode folding. */
  function LowerChar(c: char): char {
    if 'A' <= c <= 'Z' then (c as int + 32) as char else c
  }

  function Lower(s: string): (r: string)
    ensures |r| == |s|
    ensures forall i :: 0 <= i < |s| ==> r[i] == LowerChar(s[i])
    ensures forall i :: 0 <= i < |s| ==> ('A' <= s[i] <= 'Z' ==> 'a' <= r[i] <= 'z') && (r[i] == '.' <==> s[i] == '.')
    ensures forall i :: 0 <= i < |r| ==> !('A' <= r[i] <= 'Z')
  {
    seq(|s|, i requires 0 <= i < |s| => LowerChar(s[i]))
  }

  /** `s.rsplit(sep, 1)`: the whole string when `sep` does not occur in it,
      otherwise the text before and the text after its last occurrence. */
  function RSplitOnce(s: string, sep: char): (parts: seq<string>)
    ensures |parts| == 1 || |parts| == 2
    ensures |parts| == 1 <==> sep !in s
    ensures |parts| == 1 ==> parts[0] == s
    ensures |parts| == 2 ==> parts[0] + [sep] + parts[1] == s && sep !in parts[1]
    decreases |s|
  {
    if |s| == 0 then [s]
    else
      var init, last := s[..|s| - 1], s[|s| - 1];
      assert s == init + [last];
      if last == sep then [init, ""]
      else
        var p := RSplitOnce(init, sep);
        if |p| == 1 then [s] else [p[0], p[1] + [last]]
  }

  /** `allowed_file`: the name has a dot and the text after the last dot,
      lower-cased, is an allowed extension. */
  predicate AllowedFile(filename: string): (ok: bool)
    ensures ok ==> '.' in filename && |filename| >= 4
  {
    '.' in filename && Lower(RSplitOnce(filename, '.')[1]) in AllowedExtensions
  }

  /** Splitting at the last separator is unambiguous: a string written as
      `prefix + sep + suffix` with no separator in `suffix` splits back into
      exactly that prefix and suffix. */
  lemma {:induction false} RSplitOnceOfJoin(prefix: string, sep: char, suffix: string)
    requires sep !in suffix
    ensures RSplitOnce(prefix + [sep] + suffix, sep) == [prefix, suffix]
  {
    var s := prefix + [sep] + suffix;
    assert s[|prefix|] == sep;
    var p := RSplitOnce(s, sep);
    var n := |s|;
    // The separator occurs at the position before each suffix and nowhere after it.
    assert s[n - |p[1]| - 1] == sep;
    assert forall i :: n - |p[1]| <= i < n ==> s[i] == p[1][i - (n - |p[1]|)];
    assert forall i :: n - |suffix| <= i < n ==> s[i] == suffix[i - (n - |suffix|)];
    assert |p[1]| == |suffix|;
    assert p[1] == s[n - |suffix|..] == suffix;
    assert p[0] == s[..|prefix|] == prefix;
  }

  /** No dot, no upload: a name without `.` is always refused. */
  lemma AllowedFileNeedsDot(filename: string)
    ensures '.' !in filename ==> !AllowedFile(filename)
  {
  }

  /** Every name with a dot is `prefix + "." + ext` with no dot in `ext`;
      such a name is accepted exactly when `ext`, lower-cased, is one of
      png, jpg, jpeg and gif. Only the text after the last dot matters, and
      the prefix may be empty. */
  lemma AllowedFileByExtension(prefix: string, ext: string)
    requires '.' !in ext
    ensures AllowedFile(prefix + "." + ext) <==> Lower(ext) in {"png", "jpg", "jpeg", "gif"}
  {
    RSplitOnceOfJoin(prefix, '.', ext);
    assert prefix + "." + ext == prefix + ['.'] + ext;
  }

  lemma LowerConcat(a: string, b: string)
    ensures Lower(a + b) == Lower(a) + Lower(b)
  {
  }

  /** Lower-casing keeps every dot where it is and adds none. */
  lemma LowerKeepsDots(s: string)
    ensures '.' in Lower(s) <==> '.' in s
  {
    if '.' in s {
      var i :| 0 <= i < |s| && s[i] == '.';
      assert Lower(s)[i] == '.';
    }
  }

  /** Lower-casing a name and splitting it at its last dot give the same
      pieces in either order. */
  lemma {:induction false} LowerCommutesWithSplit(s: string)
    requires '.' in s
    ensures RSplitOnce(Lower(s), '.') == [Lower(RSplitOnce(s, '.')[0]), Lower(RSplitOnce(s, '.')[1])]
  {
    var p := RSplitOnce(s, '.');
    LowerConcat(p[0] + ".", p[1]);
    LowerConcat(p[0], ".");
    LowerKeepsDots(p[1]);
    assert Lower(".") == ".";
    assert Lower(s) == Lower(p[0]) + ['.'] + Lower(p[1]);
    RSplitOnceOfJoin(Lower(p[0]), '.', Lower(p[1]));
  }

  /** The check ignores letter case: two names that agree once lower-cased
      are accepted or refused together. */
  lemma {:induction false} AllowedFileIgnoresCase(f: string, g: string)
    requires Lower(f) == Lower(g)
    ensures AllowedFile(f) <==> AllowedFile(g)
  {
    LowerKeepsDots(f);
    LowerKeepsDots(g);
    if '.' in f {
      LowerCommutesWithSplit(f);
      LowerCommutesWithSplit(g);
    }
  }

  /** A name without upper-case ASCII letters is its own lower case. */
  lemma LowerOfLowerCase(s: string)
    requires forall i :: 0 <= i < |s| ==> !('A' <= s[i] <= 'Z')
    ensures Lower(s) == s
  {
  }

  lemma TarGifAccepted()
    ensures AllowedFile("a.tar.gif")
  {
    LowerOfLowerCase("gif");
    AllowedFileByExtension("a.tar", "gif");
    assert "a.tar" + "." + "gif" == "a.tar.gif";
  }

  lemma PngExeRefused()
    ensures !AllowedFile("x.png.exe")
  {
    LowerOfLowerCase("exe");
    AllowedFileByExtension("x.png", "exe");
    assert "x.png" + "." + "exe" == "x.png.exe";
  }

  lemma BarePngAccepted()
    ensures AllowedFile(".png")
  {
    LowerOfLowerCase("png");
    AllowedFileByExtension("", "png");
    assert "" + "." + "png" == ".png";
  }

  lemma TrailingDotRefused()
    ensures !AllowedFile("file.")
  {
    LowerOfLowerCase("");
    AllowedFileByExtension("file", "");
    assert "file" + "." + "" == "file.";
  }

  /** Worked cases: only the last extension counts. */
  lemma AllowedFileExamples()
    ensures AllowedFile("a.tar.gif")
    ensures !AllowedFile("x.png.exe")
  {
    TarGifAccepted();
    PngExeRefused();
  }

  /** Worked edge cases: the part before the dot may be empty, a trailing
      dot leaves an empty extension, and a bare extension has no dot. */
  lemma AllowedFileEdgeExamples()
    ensures AllowedFile(".png")
    ensures !AllowedFile("file.")
    ensures !AllowedFile("png")
  {
    BarePngAccepted();
    TrailingDotRefused();
    AllowedFileNeedsDot("png");
  }

  lemma LowerJpgUpper()
    ensures Lower("JPG") == "jpg"
  {
    var lower := Lower("JPG");
    assert lower[0] == 'j' && lower[1] == 'p' && lower[2] == 'g';
  }

  lemma LowerJpgAccepted()
    ensures AllowedFile("img.jpg")
  {
    LowerOfLowerCase("jpg");
    AllowedFileByExtension("img", "jpg");
    assert "img" + "." + "jpg" == "img.jpg";
  }

  lemma UpperJpgAccepted()
    ensures AllowedFile("IMG.JPG")
  {
    LowerJpgUpper();
    AllowedFileByExtension("IMG", "JPG");
    assert "IMG" + "." + "JPG" == "IMG.JPG";
  }

  /** `"IMG.JPG"` is accepted exactly as `"img.jpg"` is. */
  lemma AllowedFileUpperCaseExample()
    ensures AllowedFile("IMG.JPG") && AllowedFile("img.jpg")
  {
    UpperJpgAccepted();
    LowerJpgAccepted();
  }

  /** `inject_translations`: the table for the session's language, `"en"`
      when none is chosen, and the `"en"` table for an unknown code. The
      default `translations["en"]` is evaluated before the lookup, so a
      catalogue without `"en"` raises (`None` here) whatever the session holds. */
  function InjectTranslations<T(==)>(translations: map<string, T>, session: map<string, string>): (t: Option<T>)
    ensures t.None? <==> "en" !in translations
    ensures t.Some? ==> t.value in translations.Values
    ensures t.Some? && "lang" !in session ==> t.value == translations["en"]
    ensures t.Some? && "lang" in session && session["lang"] !in translations ==> t.value == translations["en"]
    ensures t.Some? && "lang" in session && session["lang"] in translations ==> t.value == translations[session["lang"]]
  {
    if "en" !in translations then None
    else
      var lang := if "lang" in session then session["lang"] else "en";
      Some(if lang in translations then translations[lang] else translations["en"])
  }
}

=== FILE: common.dfy ===
/** Shared vocabulary of the request handlers: optional values, results with
    an error side, the HTTP method of a request, the identity that the login
    layer supplies for the current caller, and what that layer answers a
    caller who is not logged in. */
module Common {

  /** A value that may be absent (Python's `None`). */
  datatype Option<+T> = None | Some(value: T)

  /** The outcome of a step that can raise. */
  datatype Result<+T, +E> = Ok(value: T) | Err(error: E)

  datatype HttpMethod = Get | Post

  /** `current_user` as Flask-Login presents it: either an anonymous visitor
      or a logged-in user with a numeric id and a role name. */
  datatype Caller = Anonymous | Authenticated(id: nat, role: string)

  /** The answer of Flask-Login's unauthorized handler. The application
      configures no login view, so whether that is a redirect or a 401 is
      left open; every handler behind `login_required` gives this one value. */
  datatype LoginRefusal = LoginRequired

  /** `login_required`: the refusal for an anonymous caller, nothing for a
      logged-in one. */
  function RequireLogin(caller: Caller): (r: Option<LoginRefusal>)
    ensures r.None? <==> caller.Authenticated?
  {
    if caller.Anonymous? then Some(LoginRequired) else None
  }
}

=== FILE: detect.dfy ===
/** The `/detect` blueprint: classify an uploaded leaf photo from the
    classifier's score vector, record the result, look up the disease and
    show the caller's history; and the `/detect/logs` history page. */
module Detect {
  import opened Common
  import opened History

  /** `LABELS`: the classifier's output index space, in order. */
  const Labels: seq<string> := [
    "Bacterial Leaf Blight",
    "Brown_Spot",
    "Healthy Rice Leaf",
    "Rice Blast",
    "Rice Tungro",
    "Not Rice Leaf"
  ]

  /** `np.argmax`: the first index holding a maximal score. */
  function ArgMax(scores: seq<real>): (k: nat)
    requires |scores| > 0
    ensures k < |scores|
    ensures forall j :: 0 <= j < |scores| ==> scores[j] <= scores[k]
    ensures forall j :: 0 <= j < k ==> scores[j] < scores[k]
  {
    if |scores| == 1 then 0
    else
      var k := ArgMax(scores[..|scores| - 1]);
      if scores[|scores| - 1] > scores[k] then |scores| - 1 else k
  }

  datatype Prediction = Prediction(index: nat, result: string, confidence: real)

  /** How the prediction step raises: `np.argmax` of an empty vector, or an
      index past the end of `LABELS`. */
  datatype PredictError = EmptyScores | LabelIndexOutOfRange(index: nat)

  /** The step from `MODEL.predict`'s score vector to label and confidence. */
  function Classify(scores: seq<real>): (r: Result<Prediction, PredictError>)
    ensures r == Err(EmptyScores) <==> |scores| == 0
    ensures 0 < |scores| <= |Labels| ==> r.Ok?
    ensures r.Ok? ==> r.value.index < |scores| && r.value.index < |Labels|
    ensures r.Ok? ==> r.value.result == Labels[r.value.index] && r.value.result in Labels
    ensures r.Ok? ==> forall j :: 0 <= j < |scores| ==> scores[j] <= scores[r.value.index]
    ensures r.Ok? ==> forall j :: 0 <= j < r.value.index ==> scores[j] < scores[r.value.index]
    ensures r.Err? && |scores| > 0 ==>
              exists j :: |Labels| <= j < |scores| && forall i :: 0 <= i < |Labels| ==> scores[i] < scores[j]
    ensures r.Ok? ==> r.value.confidence == scores[r.value.index] * 100.0
    ensures r.Ok? && (forall j :: 0 <= j < |scores| ==> 0.0 <= scores[j] <= 1.0) ==>
              0.0 <= r.value.confidence <= 100.0
  {
    if |scores| == 0 then Err(EmptyScores)
    else
      var k := ArgMax(scores);
      if k >= |Labels| then Err(LabelIndexOutOfRange(k))
      else Ok(Prediction(k, Labels[k], scores[k] * 100.0))
  }

  /** A row of the `Disease` catalogue; only the name takes part in the
      lookup, the rest is carried along for display. */
  datatype Disease = Disease(id: nat, name: string, details: string)

  /** `Disease.query.filter_by(name=pred_label).first()`: the first catalogue entry
      whose name is exactly `name` (the predicted label), or nothing. */
  function FindDisease(catalog: seq<Disease>, name: string): (d: Option<Disease>)
    ensures d.None? <==> forall i :: 0 <= i < |catalog| ==> catalog[i].name != name
    ensures forall i ::
              (0 <= i < |catalog| && catalog[i].name == name && forall j :: 0 <= j < i ==> catalog[j].name != name)
              ==> d == Some(catalog[i])
  {
    if |catalog| == 0 then None
    else if catalog[0].name == name then Some(catalog[0])
    else
      var d := FindDisease(catalog[1..], name);
      assert forall i :: 1 <= i < |catalog| ==> catalog[i] == catalog[1..][i - 1];
      d
  }

  /** The uploaded `image` form field: the client's filename and the score
      vector the classifier produces for the saved file, or `None` when
      saving the file, loading it as an image or running the classifier
      raises (a file that is not an image, a full disk). */
  datatype ImageUpload = ImageUpload(filename: string, scores: Option<seq<real>>)

  datatype DetectRequest = DetectRequest(
    verb: HttpMethod,
    caller: Caller,
    page: int,             // the `page` query argument, 1 when absent or not a number
    image: Option<ImageUpload>)

  /** The history panel: a page of the caller's own records, or the five
      newest records of anyone for an anonymous caller. */
  datatype HistoryView = UserPage(page: PageResult<DetectionLog>) | Recent(items: seq<DetectionLog>)

  datatype DetectView = DetectView(
    result: Option<string>,
    confidence: Option<real>,
    disease: Option<Disease>,
    logs: HistoryView)

  /** The response of `detect()`: the rendered page; the answer of the
      pagination library to a page it refuses, whatever that answer is (the
      history query runs first, so the request goes no further); an internal
      error when saving, loading or classifying the upload raises; or an
      internal error when the step from scores to label raises. */
  datatype DetectResponse =
    | Rendered(view: DetectView)
    | PageRejected(requested: int)
    | UploadFailed
    | ServerError(error: PredictError)

  function HistoryFor(logs: seq<DetectionLog>, caller: Caller, page: int): (h: HistoryView)
    ensures caller.Anonymous? <==> h.Recent?
    ensures caller.Anonymous? ==> h == Recent(RecentHistory(logs))
    ensures caller.Authenticated? ==> h == UserPage(UserHistory(logs, caller.id, page))
    ensures h.Recent? ==> |h.items| <= PageSize
    ensures h.UserPage? && h.page.InRange? ==>
              |h.page.items| <= PageSize &&
              forall k :: 0 <= k < |h.page.items| ==> h.page.items[k].userId == Some(caller.id)
  {
    match caller
    case Anonymous => Recent(RecentHistory(logs))
    case Authenticated(id, _) => UserPage(UserHistory(logs, id, page))
  }

  /** The history query refused the requested page. */
  predicate PageRefused(h: HistoryView) {
    h.UserPage? && h.page.OutOfRange?
  }

  /** `if img_file:` — only a POST looks at the form, and a file field with
      an empty filename is falsy. */
  predicate HasImage(req: DetectRequest): (ok: bool)
    ensures req.verb == Get ==> !ok
    ensures ok ==> req.image.Some? && |req.image.value.filename| > 0
    ensures req.verb == Post && req.image.Some? && req.image.value.filename != "" ==> ok
  {
    req.verb == Post && req.image.Some? && req.image.value.filename != ""
  }

  /** The upload was saved, loaded and scored without raising. */
  predicate Scored(req: DetectRequest) {
    HasImage(req) && req.image.value.scores.Some?
  }

  /** The record written for a classified upload. The id is the next row
      number of the append-only table and the timestamp is the database
      clock `now`. The image path is the client's filename under
      `uploads/`, unchanged. */
  function NewLog(logs: seq<DetectionLog>, req: DetectRequest, p: Prediction, now: int): (r: DetectionLog)
    requires HasImage(req)
    ensures IdsSequential(logs) ==> IdsSequential(logs + [r])
    ensures |r.imagePath| == 8 + |req.image.value.filename|
    ensures r.imagePath[..8] == "uploads/" && r.imagePath[8..] == req.image.value.filename
    ensures r.userId.Some? <==> req.caller.Authenticated?
    ensures r.userId.Some? ==> r.userId.value == req.caller.id
    ensures r.result == p.result && r.confidence == p.confidence && r.timestamp == now
  {
    DetectionLog(
      |logs| + 1,
      "uploads/" + req.image.value.filename,
      p.result,
      p.confidence,
      if req.caller.Authenticated? then Some(req.caller.id) else None,
      now)
  }

  /** One request to `/detect`: the log table after the request and the
      response. The history is read before anything else: a refused page
      stops the request before the upload is looked at, and otherwise the
      view shows the table as it was before this request's record. */
  function Detect(logs: seq<DetectionLog>, catalog: seq<Disease>, req: DetectRequest, now: int)
    : (out: (seq<DetectionLog>, DetectResponse))
    ensures out.1.Rendered? ==> out.1.view.logs == HistoryFor(logs, req.caller, req.page)
    ensures PageRefused(HistoryFor(logs, req.caller, req.page)) ==> out == (logs, PageRejected(req.page))
    ensures !PageRefused(HistoryFor(logs, req.caller, req.page)) && !HasImage(req) ==>
              out.0 == logs && out.1 == Rendered(DetectView(None, None, None, HistoryFor(logs, req.caller, req.page)))
    ensures !PageRefused(HistoryFor(logs, req.caller, req.page)) && HasImage(req) && !Scored(req) ==>
              out == (logs, UploadFailed)
    ensures !PageRefused(HistoryFor(logs, req.caller, req.page)) && Scored(req) && Classify(req.image.value.scores.value).Err? ==>
              out.0 == logs && out.1 == ServerError(Classify(req.image.value.scores.value).error)
    ensures !PageRefused(HistoryFor(logs, req.caller, req.page)) && Scored(req) && Classify(req.image.value.scores.value).Ok? ==>
              var p := Classify(req.image.value.scores.value).value;
              && |out.0| == |logs| + 1
              && out.0[..|logs|] == logs
              && out.0[|logs|].result == p.result
              && out.0[|logs|].confidence == p.confidence
              && out.0[|logs|].imagePath == "uploads/" + req.image.value.filename
              && out.0[|logs|].userId == (if req.caller.Authenticated? then Some(req.caller.id) else None)
              && out.0[|logs|].timestamp == now
              && out.1.Rendered?
              && out.1.view.result == Some(p.result)
              && out.1.view.confidence == Some(p.confidence)
              && out.1.view.disease == FindDisease(catalog, p.result)
  {
    var history := HistoryFor(logs, req.caller, req.page);
    if PageRefused(history) then (logs, PageRejected(req.page))
    else if !HasImage(req) then (logs, Rendered(DetectView(None, None, None, history)))
    else if !Scored(req) then (logs, UploadFailed)
    else
      match Classify(req.image.value.scores.value)
      case Err(e) => (logs, ServerError(e))
      case Ok(p) =>
        var log := NewLog(logs, req, p, now);
        (logs + [log], Rendered(DetectView(Some(p.result), Some(p.confidence), FindDisease(catalog, p.result), history)))
  }

  /** Every row's id is its 1-based position: the table is append-only. */
  ghost predicate IdsSequential(logs: seq<DetectionLog>) {
    forall i :: 0 <= i < |logs| ==> logs[i].id == i + 1
  }

  /** A request to `/detect` never rewrites or removes a record, writes at
      most one, and keeps ids sequential. */
  lemma DetectAppendsAtMostOne(logs: seq<DetectionLog>, catalog: seq<Disease>, req: DetectRequest, now: int)
    requires IdsSequential(logs)
    ensures var after := Detect(logs, catalog, req, now).0;
      && IdsSequential(after)
      && (after == logs || |after| == |logs| + 1)
      && after[..|logs|] == logs
  {
  }

  /** With a score vector of the classifier's width, a POST whose file field
      has a non-empty filename always yields one of the six labels and one new record carrying it,
      unless the history query refused the page first. */
  lemma DetectWithFullScoreVector(logs: seq<DetectionLog>, catalog: seq<Disease>, req: DetectRequest, now: int)
    requires req.verb == Post && req.image.Some? && req.image.value.filename != ""
    requires req.image.value.scores.Some? && |req.image.value.scores.value| == |Labels|
    ensures var (after, resp) := Detect(logs, catalog, req, now);
      if PageRefused(HistoryFor(logs, req.caller, req.page)) then after == logs && resp.PageRejected?
      else
        && resp.Rendered? && resp.view.result.Some? && resp.view.result.value in Labels
        && |after| == |logs| + 1 && after[|logs|].result == resp.view.result.value
  {
  }

  /** Page 1 is never refused, so the first upload of a caller who owns no
      record yet is still classified and recorded. */
  lemma FirstPageNeverRefused(logs: seq<DetectionLog>, caller: Caller)
    ensures !PageRefused(HistoryFor(logs, caller, 1))
  {
  }

  datatype LogsResponse = NotLoggedIn(refusal: LoginRefusal) | LogsPage(page: PageResult<DetectionLog>)

  /** `/detect/logs` behind `login_required`: an anonymous caller gets the
      login refusal, as on the admin pages; anyone else gets the same page of
      their own records as the history panel of `/detect` shows. */
  function Logs(logs: seq<DetectionLog>, caller: Caller, page: int): (r: LogsResponse)
    ensures r.NotLoggedIn? <==> caller.Anonymous?
    ensures r.NotLoggedIn? ==> r.refusal == LoginRequired
    ensures r.LogsPage? ==> HistoryFor(logs, caller, page) == UserPage(r.page)
    ensures r.LogsPage? && r.page.InRange? ==>
              forall k :: 0 <= k < |r.page.items| ==> r.page.items[k].userId == Some(caller.id)
  {
    if RequireLogin(caller).Some? then NotLoggedIn(RequireLogin(caller).value)
    else LogsPage(UserHistory(logs, caller.id, page))
  }
}

=== FILE: history.dfy ===
/** The detection-log table and the two history queries run against it:
    a caller's own records, newest first, five per page, and the five newest
    records of anyone. */
module History {
  import opened Common

  /** One row of the `DetectionLog` table. `timestamp` is the creation time
      the database stores; `userId` is absent for anonymous uploads. */
  datatype DetectionLog = DetectionLog(
    id: nat,
    imagePath: string,
    result: string,
    confidence: real,
    userId: Option<nat>,
    timestamp: int)

  /** `per_page=5` in the paginated query and `limit(5)` in the anonymous one. */
  const PageSize: nat := 5

  /** Ordered by `timestamp` descending. */
  ghost predicate NewestFirst(xs: seq<DetectionLog>) {
    forall i, j :: 0 <= i < j < |xs| ==> xs[i].timestamp >= xs[j].timestamp
  }

  /** Places `r` in front of the first record that is not newer than it. */
  function InsertNewestFirst(r: DetectionLog, xs: seq<DetectionLog>): (ys: seq<DetectionLog>)
    requires NewestFirst(xs)
    ensures NewestFirst(ys)
    ensures multiset(ys) == multiset(xs) + multiset{r}
    ensures forall k :: 0 <= k < |ys| ==> ys[k] == r || ys[k] in xs
  {
    if |xs| == 0 then [r]
    else if r.timestamp >= xs[0].timestamp then [r] + xs
    else
      assert xs == [xs[0]] + xs[1..];
      [xs[0]] + InsertNewestFirst(r, xs[1..])
  }

  /** `ORDER BY timestamp DESC`. The database leaves the order of equal
      timestamps open; this model lists the later-inserted record first. */
  function SortNewestFirst(xs: seq<DetectionLog>): (ys: seq<DetectionLog>)
    ensures NewestFirst(ys)
    ensures multiset(ys) == multiset(xs)
  {
    if |xs| == 0 then []
    else
      assert xs == xs[..|xs| - 1] + [xs[|xs| - 1]];
      InsertNewestFirst(xs[|xs| - 1], SortNewestFirst(xs[..|xs| - 1]))
  }

  /** `filter_by(user_id=uid)`: the records owned by `uid`, in table order. */
  function OwnedBy(logs: seq<DetectionLog>, uid: nat): (ys: seq<DetectionLog>)
    ensures forall k :: 0 <= k < |ys| ==> ys[k].userId == Some(uid)
    ensures forall r :: r in ys <==> r in logs && r.userId == Some(uid)
    ensures multiset(ys) <= multiset(logs)
    ensures forall r :: multiset(ys)[r] == if r.userId == Some(uid) then multiset(logs)[r] else 0
  {
    if |logs| == 0 then []
    else
      assert logs == [logs[0]] + logs[1..];
      (if logs[0].userId == Some(uid) then [logs[0]] else []) + OwnedBy(logs[1..], uid)
  }

  /** The result of `paginate(page=page, per_page=5)`. Pages the library
      refuses (a page below 1, or a page past the last one other than page 1)
      are `OutOfRange`; what the library does with them is not modelled. */
  datatype PageResult<T> = InRange(items: seq<T>, page: nat, total: nat) | OutOfRange(requested: int)

  /** The 1-based page `page` of `xs`: an empty window past the end. */
  function Window<T>(xs: seq<T>, page: nat): (w: seq<T>)
    requires page >= 1
    ensures |w| <= PageSize
    ensures (page - 1) * PageSize < |xs| ==> w != []
    ensures forall k :: 0 <= k < |w| ==> (page - 1) * PageSize + k < |xs| && w[k] == xs[(page - 1) * PageSize + k]
  {
    var lo := (page - 1) * PageSize;
    var hi := page * PageSize;
    if lo >= |xs| then [] else if hi >= |xs| then xs[lo..] else xs[lo..hi]
  }

  /** The pages `paginate` serves: page 1 always, and any later page up to
      the last one that holds an item. */
  predicate PageExists(total: nat, page: int): (ok: bool)
    ensures page == 1 ==> ok
    ensures ok <==> 1 <= page && (page == 1 || page <= PageCount(total))
  {
    page == 1 || (page > 1 && (page - 1) * PageSize < total)
  }

  function Paginate<T>(xs: seq<T>, page: int): (p: PageResult<T>)
    ensures p.InRange? <==> PageExists(|xs|, page)
    ensures p.InRange? ==> p.total == |xs| && p.page == page && p.items == Window(xs, page)
  {
    if PageExists(|xs|, page) then InRange(Window(xs, page), page, |xs|) else OutOfRange(page)
  }

  /** The history of an authenticated caller: their own records, newest first,
      page `page` of five. */
  function UserHistory(logs: seq<DetectionLog>, uid: nat, page: int): (p: PageResult<DetectionLog>)
    ensures p.InRange? <==> PageExists(|OwnedBy(logs, uid)|, page)
    ensures p.InRange? ==> |p.items| <= PageSize && NewestFirst(p.items)
    ensures p.InRange? ==> forall k :: 0 <= k < |p.items| ==> p.items[k].userId == Some(uid) && p.items[k] in logs
    ensures p.InRange? ==> p.total == |OwnedBy(logs, uid)|
  {
    var mine := SortNewestFirst(OwnedBy(logs, uid));
    assert |mine| == |multiset(mine)| == |multiset(OwnedBy(logs, uid))| == |OwnedBy(logs, uid)|;
    var p := Paginate(mine, page);
    if p.InRange? then
      WindowKeepsOrder(mine, page);
      forall k | 0 <= k < |p.items|
        ensures p.items[k] in OwnedBy(logs, uid)
      {
        assert p.items[k] in multiset(mine);
      }
      p
    else p
  }

  lemma WindowKeepsOrder(xs: seq<DetectionLog>, page: nat)
    requires page >= 1 && NewestFirst(xs)
    ensures NewestFirst(Window(xs, page))
  {
  }

  /** The history of an anonymous caller: the five newest records of anyone. */
  function RecentHistory(logs: seq<DetectionLog>): (items: seq<DetectionLog>)
    ensures |items| == if |logs| < PageSize then |logs| else PageSize
    ensures NewestFirst(items)
    ensures multiset(items) <= multiset(logs)
    ensures forall r, k :: r in logs && r !in items && 0 <= k < |items| ==> items[k].timestamp >= r.timestamp
  {
    var sorted := SortNewestFirst(logs);
    var items := if |sorted| <= PageSize then sorted else sorted[..PageSize];
    assert |sorted| == |multiset(sorted)| == |multiset(logs)| == |logs|;
    assert sorted == items + sorted[|items|..];
    forall r, k | r in logs && r !in items && 0 <= k < |items|
      ensures items[k].timestamp >= r.timestamp
    {
      assert r in multiset(sorted);
      var j :| 0 <= j < |sorted| && sorted[j] == r;
      assert j >= |items|;
    }
    items
  }

  /** Pages 1 to `n` of `xs`, one after the other. */
  function PagesUpTo<T>(xs: seq<T>, n: nat): seq<T> {
    if n == 0 then [] else PagesUpTo(xs, n - 1) + Window(xs, n)
  }

  /** Reading pages 1, 2, ..., n in turn yields the first `5 * n` items, in
      order, each exactly once. */
  lemma {:induction false} PagesUpToIsPrefix<T>(xs: seq<T>, n: nat)
    ensures PagesUpTo(xs, n) == xs[..if n * PageSize <= |xs| then n * PageSize else |xs|]
  {
    if n > 0 {
      PagesUpToIsPrefix(xs, n - 1);
    }
  }

  /** The number of pages the library reports: `ceil(total / 5)`. */
  function PageCount(total: nat): nat {
    (total + PageSize - 1) / PageSize
  }

  /** Pages 1 to `PageCount` all exist and together list every item once, in
      order; the page after the last one, when it is not page 1, does not. */
  lemma PagesCoverAll<T>(xs: seq<T>)
    ensures PagesUpTo(xs, PageCount(|xs|)) == xs
    ensures forall p :: 1 <= p <= PageCount(|xs|) ==> PageExists(|xs|, p)
    ensures PageCount(|xs|) >= 1 ==> !PageExists(|xs|, PageCount(|xs|) + 1)
  {
    PagesUpToIsPrefix(xs, PageCount(|xs|));
  }

  /** Paging through an authenticated caller's history from page 1 to the
      last page shows every record they own exactly once, newest first, and
      no record of anyone else. */
  lemma UserHistoryPagesCoverCallerRecords(logs: seq<DetectionLog>, uid: nat)
    ensures var mine := OwnedBy(logs, uid);
      && (forall p :: 1 <= p <= PageCount(|mine|) ==>
            UserHistory(logs, uid, p).InRange? && UserHistory(logs, uid, p).items == Window(SortNewestFirst(mine), p))
      && multiset(PagesUpTo(SortNewestFirst(mine), PageCount(|mine|))) == multiset(mine)
      && NewestFirst(PagesUpTo(SortNewestFirst(mine), PageCount(|mine|)))
  {
    var mine := OwnedBy(logs, uid);
    var sorted := SortNewestFirst(mine);
    assert |sorted| == |multiset(sorted)| == |multiset(mine)| == |mine|;
    PagesCoverAll(sorted);
  }
}
